=== FILE: README.md ===
# Milky AI bot: a Dafny model of its event handling

Milky AI is a Telegram bot that forwards chat messages and inline queries to
Google Gemini and sends back the generated text. All of its logic lives in
`index.js`: three `onText` command listeners (`/start`, `/help`,
`/newtopic`), a `message` listener, an `inline_query` listener and a
`callback_query` listener, plus the in-memory `chatSessions` map.

This project models that logic as pure functions:

- `Handlers.Dispatch(event, generation, sessions)` routes one listener
  invocation to its handler. It returns the Bot API calls made, in order,
  and the prompt sent to Gemini, if any. It also says whether the listener
  throws, and gives the session map afterwards.
- Events (`BotApi.Event`) and outbound calls (`BotApi.Action`) are tagged
  datatypes. Gemini is an oracle input: `Generated(text)` or
  `GenerationFailed`.
- `chatSessions` is a `map<ChatId, V>`. Nothing in the bot ever stores an
  entry, so the value type is a parameter. `/newtopic` only deletes.
- Truncation (`Truncation.Truncate`) is one rule used with three limits:
  4096 for direct replies, 200 for inline snippets and 30 for the query
  quoted in an inline title. Above the limit it keeps `limit - 3` code
  units and appends `"..."`.
- Strings are `seq<char>`, where each `char` stands for one UTF-16 code
  unit. That is the unit of JavaScript's `.length` and `substring`.
  Dafny's `char` has no surrogate values, so each half of a surrogate pair
  stands for some other non-whitespace `char`. That is sound here: the model
  only inspects code units for whitespace and for '/', and it counts them.
  `JsString.Trim` removes the ECMAScript whitespace and line-terminator set
  that `String.prototype.trim` removes.
- `EventLoop.Run` processes a sequence of updates one at a time. It lifts
  the per-event obligations to whole runs.

Points of the code's behaviour that are easy to misread:

- No listener inserts into `chatSessions` (index.js:14, 66-67). The map
  starts empty, so it stays empty forever (`EventLoop.RunFromEmptyStaysEmpty`).
  Chat messages do not create sessions.
- The error reply to a chat message is not threaded to the user's message.
  Only the success reply carries `reply_to_message_id` (index.js:95, 100-102).
- Any rejection of `generateContent` or `response.text()` takes the same
  catch branch; the kind of failure makes no difference (index.js:98-103,
  161-176).
- Chat messages with absent or empty text, or with text starting with '/',
  are dropped by the `message` listener itself (index.js:77).
- Suppose a callback press carries data `"help"` but no origin message.
  Telegram omits the message for buttons on inline-mode messages. The
  listener then reads `message.chat.id` off `undefined` and throws before
  `answerCallbackQuery` (index.js:184-193). The model marks that reaction
  `rejected` with no calls. Every other callback is acknowledged exactly once.
  The bot's own keyboards never lead there: the only button with data
  `"help"` sits under the `/start` welcome (index.js:37), a regular chat
  message, and no inline result carries a callback button (index.js:121-123,
  148-153, 164-173).
- The query passed to Gemini for an inline query is the raw query, not the
  trimmed one (index.js:131).
- Command detection is not exclusive. A text containing "/start" fires the
  `/start` listener. If that text does not begin with '/', the `message`
  listener also handles it. The model treats the two as separate events
  (`CommandEvent`, `MessageEvent`).

## Model

| member | source | states |
|---|---|---|
| `JsString.TrimStart` | index.js:111 | the result is a suffix of the input, everything dropped is whitespace, and it does not start with whitespace |
| `JsString.TrimEnd` | index.js:111 | the result is a prefix of the input, everything dropped is whitespace, and it does not end with whitespace |
| `JsString.BlankIffAllWhitespace` | index.js:111 | `!query.trim()` holds exactly when every code unit of the query is whitespace (the empty query included) |
| `JsString.IsBlank` | index.js:111 | `!query.trim()` holds exactly when every code unit of the query is whitespace, so the empty query is blank |
| `Truncation.Truncate` | index.js:91 | a text within the limit is unchanged; a longer one becomes exactly `limit` units, its first `limit - 3` units those of the input, ending in "..." |
| `Truncation.TruncateCharacterized` | index.js:91 | those properties determine the truncation uniquely (both directions) |
| `Truncation.TruncateBounded` | index.js:91 | truncation never exceeds the limit nor lengthens the text |
| `Truncation.TruncateIdempotent` | index.js:136-137 | a property of the rule itself, not of a path in the program (the source truncates each text once): truncating an already truncated text with the same limit changes nothing |
| `Truncation.DirectReplyText` | index.js:91 | a reply of at most 4096 units is sent as is; a longer one is 4096 units, the first 4093 of the answer then "..." |
| `Truncation.InlineSnippet` | index.js:136-137 | a snippet of at most 200 units is kept; a longer one is the first 197 units then "...", 200 in all |
| `Truncation.InlineTitle` | index.js:142 | the title starts with "Q: ", is at most 33 units, equals "Q: " + query when the query has at most 30 units and "Q: " + its first 27 units + "..." otherwise |
| `SessionStore.Reset` | index.js:66-67 | after a reset the chat has no session, every other chat keeps its entry and value, and resetting an absent chat changes nothing |
| `SessionStore.ResetIsRemoval` | index.js:66-67 | the `has` guard makes no difference: a reset is plain deletion of the key |
| `SessionStore.ResetIdempotent` | index.js:64-68 | a second `/newtopic` on the same chat leaves the map as the first did |
| `SessionStore.ResetCommutes` | index.js:64-68 | `/newtopic` in two different chats leaves the same map whichever is handled first |
| `Handlers.PassesFilter` | index.js:77 | a message passes exactly when its text is present, non-empty and does not start with '/' |
| `Handlers.HandleCommand` | index.js:17-72 | each command listener sends exactly one message to the command's chat, never as a reply: `/start` the welcome text with the two-row keyboard (inline mode, help), `/help` the help text, `/newtopic` its confirmation; only `/start` attaches a keyboard |
| `Handlers.HandleMessage` | index.js:75-104 | a filtered-out message gets no calls and no prompt; an accepted one is sent to Gemini verbatim and gets the typing indicator then one reply: the truncated answer threaded to the message on success, the fixed error text unthreaded on failure; the listener never throws |
| `Handlers.GeneratedInlineResult` | index.js:136-154 | the generated article has the timestamp id, the "Q: " title of the query (at most 33 units), the 200/197 snippet of the answer as description (the answer itself when it fits), a message text made of the heading, that same snippet, the question label and the query, and the two-button keyboard |
| `Handlers.HandleInlineQuery` | index.js:107-177 | every query gets exactly one answer with exactly one result: a blank query the default result with cache time 1 and no prompt; otherwise the raw query is the prompt, and the answer is the generated result (cache 10, personal) or the error result (cache 1) |
| `Handlers.HandleCallback` | index.js:180-194 | a "help" press with an origin makes exactly two calls, the quick-help edit of that message then the acknowledgement; any other press makes exactly one, the acknowledgement; a "help" press without origin throws with no calls |
| `Handlers.Dispatch` | index.js:14-194 | no event adds a session or changes a stored value; `/newtopic` removes exactly its chat; every other event leaves the map unchanged |
| `DispatchProperties.MessageFilterDecides` | index.js:77 | a chat message gets any call, and reaches Gemini, exactly when it passes the filter |
| `DispatchProperties.FilterRejectsCommandsAndNonText` | index.js:77 | absent, empty and '/'-prefixed texts are filtered out; any other non-empty text passes |
| `DispatchProperties.MessageGetsExactlyOneReply` | index.js:81-103 | an accepted message gets the typing indicator and then exactly one `sendMessage`, to its chat: the truncated answer threaded to the message on success, the error text unthreaded on failure |
| `DispatchProperties.PromptOnlyForAcceptedInput` | index.js:75-133 | Gemini is called exactly for accepted chat messages and non-blank inline queries, with the user's text unmodified |
| `DispatchProperties.OnlyOriginlessHelpPressThrows` | index.js:81-193 | the only listener invocation that throws is a "help" press without an origin message; generation failures never escape |
| `DispatchProperties.CallbackAckedOnceLast` | index.js:184-193 | a returning callback is acknowledged exactly once, as its last call, and the origin is edited (once) exactly when the data is "help": the edit is of the origin message's chat and id, with the quick help |
| `DispatchProperties.InlineAnswerKinds` | index.js:111-175 | the default result is given exactly for blank queries, the error result exactly when generation failed on a non-blank query, the generated one otherwise; cache time 10 and the personal flag exactly for generated answers, cache time 1 otherwise |
| `DispatchProperties.NewTopicResets` | index.js:64-72 | `/newtopic` leaves the chat without a session, keeps every other entry, is a no-op for an absent chat and sends its confirmation in both cases |
| `DispatchProperties.WelcomeHelpButtonIsHandled` | index.js:184-189 | the "Bantuan" button of the `/start` reply (index.js:37) carries the data the callback listener answers by editing that message and acknowledging |
| `DispatchProperties.GeneratedSnippetPlacement` | index.js:136-147 | for a non-blank query answered by Gemini, the single result shows one snippet both as description and inside the message text; a long answer becomes its first 197 units and "..." (200 in all), and a long query is quoted in the title by its first 27 units and "..." |
| `EventLoop.Run` | index.js:14-194 | over any run, the session map only loses keys and no stored value changes |
| `EventLoop.RunRemovesExactlyResetChats` | index.js:64-68 | the final session map is the initial one minus exactly the chats that saw `/newtopic` |
| `EventLoop.RunFromEmptyStaysEmpty` | index.js:14 | starting from the empty map the bot creates, the session map stays empty for ever |
| `EventLoop.StepSends` | index.js:32-102 | one event makes one `sendMessage` if it is a command or an accepted chat message, none otherwise |
| `EventLoop.StepAcks` | index.js:193 | one event makes one acknowledgement if it is a returning callback press, none otherwise |
| `EventLoop.RunRepliesOncePerMessage` | index.js:60-102 | over a run, the number of `sendMessage` calls equals the number of commands plus accepted chat messages |
| `EventLoop.RunAcksEveryCallback` | index.js:180-193 | over a run, the number of acknowledgements equals the number of callback presses whose listener returns |
| `EventLoop.RunWithoutCallbacksAcksNothing` | index.js:193 | a run with no returning callback press makes no acknowledgement at all |

## Left out

- Transport: Bot API calls are records (`BotApi.Action`). A call that
  Telegram rejects is not modelled. Such calls include a Markdown reply
  that does not parse and an empty reply. In the source, a rejected
  success reply to a chat message or a rejected generated inline answer
  falls into the same catch and sends the error reply or error result. In
  the model, sends always succeed.
- The Gemini client (model setup and `generateContent`): it is an oracle
  value per event. Its own behaviour, latency and error kinds are outside
  the model.
- Configuration and credentials loaded from the environment: they do not
  affect any decision.
- Logging (`console.error`, `console.log`) and the `polling_error`/`error`
  listeners: they only log.
- Concurrency: the listeners are async and interleave at their `await`s.
  The model processes each event atomically and in order, so it says
  nothing about the relative order of replies to concurrent events.
- What happens after a listener throws: the model only flags
  `rejected`. Node's handling of the unhandled promise rejection is a
  runtime matter.
- Markdown validity, `parse_mode` (always Markdown in the source) and
  surrogate-pair safety of `substring`: the source counts raw code units
  and the model does the same.
- Fixed message bodies and the bot username: the welcome, help, quick-help,
  confirmation and error texts are opaque constants. The same goes for the
  inline heading and question label, and for URLs built from
  `bot.options.username`. Only their identity matters.
- The inline result id from `Date.now()`: it is the opaque `TimestampId`.
- Command regexes: the `onText` patterns match anywhere in the text. A
  command is modelled as a tagged `CommandEvent`. Which texts fire which
  listener is not modelled.

=== FILE: botapi.dfy ===
/**
 The bot's view of the Telegram Bot API and of the Gemini client: the events
 it receives, the calls it makes, and the fixed content it sends. Transport
 calls are records, not effects; generation is an oracle value.
 */
module BotApi {
  import opened Wrappers

  type ChatId = int
  type MessageId = int

  /** The three commands the bot registers `onText` listeners for. */
  datatype Command = Start | Help | NewTopic

  /** A chat message as the handlers read it: `msg.chat.id`,
      `msg.message_id` and the optional `msg.text`. */
  datatype IncomingMessage = IncomingMessage(chat: ChatId, messageId: MessageId, text: Option<string>)

  /** The message a callback button was attached to (`callbackQuery.message`). */
  datatype MessageRef = MessageRef(chat: ChatId, messageId: MessageId)

  /** One listener invocation. A single Telegram update can give rise to more
      than one event: a text containing "/start" fires the `/start` listener
      and is also seen by the `message` listener. */
  datatype Event =
    | CommandEvent(command: Command, chat: ChatId)
    | MessageEvent(message: IncomingMessage)
    | InlineQueryEvent(queryId: string, query: string)
    | CallbackQueryEvent(callbackId: string, data: Option<string>, origin: Option<MessageRef>)

  /** What `model.generateContent(prompt)` and `response.text()` produced:
      the generated text, or any rejection along the way. */
  datatype Generation = Generated(text: string) | GenerationFailed

  /** Buttons of an inline keyboard. Url buttons are `https://t.me/` links
      built from the bot's configured username, optionally with a `start`
      parameter. */
  datatype Button =
    | SwitchInlineButton(caption: string, query: string)
    | SwitchInlineCurrentChatButton(caption: string, query: string)
    | CallbackButton(caption: string, data: string)
    | BotLinkButton(caption: string, startParameter: Option<string>)

  type Keyboard = seq<seq<Button>>

  /** The options of `sendMessage` besides the always-present Markdown parse mode. */
  datatype SendOptions = SendOptions(replyTo: Option<MessageId>, keyboard: Option<Keyboard>)

  /** An inline result id: a literal, or the opaque `Date.now().toString()`. */
  datatype ResultId = LiteralId(id: string) | TimestampId

  /** An inline `article` result. */
  datatype InlineResult = InlineResult(
    id: ResultId,
    title: string,
    messageText: string,
    description: string,
    keyboard: Option<Keyboard>)

  /** `cache_time` and `is_personal` (false when the source omits it). */
  datatype InlineOptions = InlineOptions(cacheTime: nat, isPersonal: bool)

  datatype ChatAction = Typing

  /** An outbound Bot API call. */
  datatype Action =
    | SendChatAction(chat: ChatId, chatAction: ChatAction)
    | SendMessage(chat: ChatId, text: string, options: SendOptions)
    | AnswerInlineQuery(queryId: string, results: seq<InlineResult>, inlineOptions: InlineOptions)
    | EditMessageText(chat: ChatId, messageId: MessageId, text: string)
    | AnswerCallbackQuery(callbackId: string)

  /** The callback data of the "help" button. */
  const HelpData: string := "help"

  // The bot's fixed Markdown texts. They are opaque here: only their identity
  // matters, not their wording, emoji or the bot username they interpolate.
  const WelcomeText: string := "<welcome>"
  const HelpText: string := "<help>"
  const NewTopicText: string := "<new topic started>"
  const MessageErrorText: string := "<message error>"
  const InlineDefaultText: string := "<inline ready>"
  const InlineErrorText: string := "<inline error>"
  const QuickHelpText: string := "<quick help>"
  /** The heading and the question label framing a generated inline message. */
  const InlineAnswerHeading: string := "<answer heading>\n"
  const InlineQuestionLabel: string := "\n\n<question label> "

  /** The keyboard under the `/start` welcome: try inline mode, or ask for help. */
  const StartKeyboard: Keyboard :=
    [[SwitchInlineButton("Coba Inline Mode", "")], [CallbackButton("Bantuan", HelpData)]]

  /** The result offered for an empty or blank inline query. */
  const DefaultInlineResult: InlineResult := InlineResult(
    LiteralId("1"),
    "Tanya Milky AI",
    InlineDefaultText,
    "Klik untuk bertanya pada Milky AI",
    Some([[BotLinkButton("Mulai Chat", None)]]))

  /** The result offered when generation for an inline query fails. */
  const ErrorInlineResult: InlineResult := InlineResult(
    LiteralId("error"),
    "Error - Coba lagi",
    InlineErrorText,
    "Klik untuk mencoba lagi",
    None)

  /** The keyboard under a generated inline answer: ask again, or open the bot. */
  const GeneratedKeyboard: Keyboard :=
    [[SwitchInlineCurrentChatButton("Tanya Lagi", ""), BotLinkButton("Chat Pribadi", Some("inline"))]]
}

=== FILE: counting.dfy ===
/** Counting the elements of a sequence that satisfy a predicate: used for
    the Bot API calls a handler makes and for the updates of a run. */
module Counting {

  /** The number of elements of `xs` that satisfy `p`. */
  function Count<T>(xs: seq<T>, p: T -> bool): (n: nat)
    ensures n <= |xs|
    ensures n == 0 <==> forall i :: 0 <= i < |xs| ==> !p(xs[i])
  {
    if |xs| == 0 then 0 else (if p(xs[0]) then 1 else 0) + Count(xs[1..], p)
  }

  /** Counting distributes over concatenation. */
  lemma {:induction false} CountAppend<T>(a: seq<T>, b: seq<T>, p: T -> bool)
    ensures Count(a + b, p) == Count(a, p) + Count(b, p)
    decreases |a|
  {
    if |a| == 0 {
      assert a + b == b;
    } else {
      assert (a + b)[1..] == a[1..] + b;
      CountAppend(a[1..], b, p);
    }
  }
}

=== FILE: eventloop.dfy ===
/**
 A run of the bot: updates processed one after another, each atomically,
 against the one shared session map, which starts empty as `new Map()` does.
 */
module EventLoop {
  import opened Wrappers
  import opened Counting
  import opened BotApi
  import opened SessionStore
  import opened Handlers

  /** One event together with what the generator answers if it is asked. */
  datatype Update = Update(event: Event, generation: Generation)

  /** Every call made during a run, in order, and the final session map. */
  datatype Trace<V> = Trace(actions: seq<Action>, sessions: Sessions<V>)

  /** Processes `updates` in order starting from the session map `s`. No
      update ever adds a session or changes a stored one. */
  function Run<V>(updates: seq<Update>, s: Sessions<V>): (t: Trace<V>)
    ensures t.sessions.Keys <= s.Keys
    ensures forall k :: k in t.sessions ==> t.sessions[k] == s[k]
    decreases |updates|
  {
    if |updates| == 0 then
      Trace([], s)
    else
      var step := Dispatch(updates[0].event, updates[0].generation, s);
      var rest := Run(updates[1..], step.sessions);
      Trace(step.reaction.actions + rest.actions, rest.sessions)
  }

  /** The chats some update of the run sends `/newtopic` for. */
  function ResetChats(updates: seq<Update>): set<ChatId>
  {
    set i | 0 <= i < |updates| && updates[i].event.CommandEvent? && updates[i].event.command == NewTopic
      :: updates[i].event.chat
  }

  /** The session map at the end of a run is the initial one minus every chat
      that saw a `/newtopic`: a reset chat stays absent for good, and no other
      entry is touched. */
  lemma {:induction false} RunRemovesExactlyResetChats<V>(updates: seq<Update>, s: Sessions<V>)
    ensures Run(updates, s).sessions == s - ResetChats(updates)
    decreases |updates|
  {
    if |updates| > 0 {
      var e := updates[0].event;
      var step := Dispatch(e, updates[0].generation, s);
      RunRemovesExactlyResetChats(updates[1..], step.sessions);
      var head: set<ChatId> := if e.CommandEvent? && e.command == NewTopic then {e.chat} else {};
      assert ResetChats(updates) == head + ResetChats(updates[1..]) by {
        forall c | c in ResetChats(updates)
          ensures c in head + ResetChats(updates[1..])
        {
          var i :| 0 <= i < |updates| && updates[i].event.CommandEvent?
            && updates[i].event.command == NewTopic && updates[i].event.chat == c;
          if i > 0 {
            assert updates[1..][i - 1] == updates[i];
          }
        }
        forall c | c in ResetChats(updates[1..])
          ensures c in ResetChats(updates)
        {
          var j :| 0 <= j < |updates[1..]| && updates[1..][j].event.CommandEvent?
            && updates[1..][j].event.command == NewTopic && updates[1..][j].event.chat == c;
          assert updates[j + 1] == updates[1..][j];
        }
      }
      assert step.sessions == s - head;
    } else {
      assert ResetChats(updates) == {};
    }
  }

  /** The bot's session map is created empty and so stays empty whatever
      happens: nothing ever stores a session. */
  lemma RunFromEmptyStaysEmpty<V>(updates: seq<Update>)
    ensures Run<V>(updates, map[]).sessions == map[]
  {
  }

  /** Updates whose listener sends exactly one `sendMessage`: commands and
      chat messages that pass the filter. */
  predicate ExpectsReply(u: Update)
  {
    u.event.CommandEvent? || (u.event.MessageEvent? && PassesFilter(u.event.message.text))
  }

  /** Callback presses whose listener returns normally. */
  predicate ExpectsAck(u: Update)
  {
    u.event.CallbackQueryEvent? && (u.event.data != Some(HelpData) || u.event.origin.Some?)
  }

  /** One event accounts for one `sendMessage` exactly when it expects a reply. */
  lemma StepSends<V>(u: Update, s: Sessions<V>)
    ensures Count(Dispatch(u.event, u.generation, s).reaction.actions, IsSend) == if ExpectsReply(u) then 1 else 0
  {
  }

  /** One event accounts for one acknowledgement exactly when it expects one. */
  lemma StepAcks<V>(u: Update, s: Sessions<V>)
    ensures Count(Dispatch(u.event, u.generation, s).reaction.actions, IsAck) == if ExpectsAck(u) then 1 else 0
  {
  }

  /** Over a whole run, the bot sends exactly one message per command and per
      accepted chat message, and nothing else it does is a `sendMessage`. */
  lemma {:induction false} RunRepliesOncePerMessage<V>(updates: seq<Update>, s: Sessions<V>)
    ensures Count(Run(updates, s).actions, IsSend) == Count(updates, ExpectsReply)
    decreases |updates|
  {
    if |updates| > 0 {
      var step := Dispatch(updates[0].event, updates[0].generation, s);
      RunRepliesOncePerMessage(updates[1..], step.sessions);
      CountAppend(step.reaction.actions, Run(updates[1..], step.sessions).actions, IsSend);
      StepSends(updates[0], s);
    }
  }

  /** Over a whole run, every callback press whose listener returns is
      acknowledged exactly once, and nothing else is. */
  lemma {:induction false} RunAcksEveryCallback<V>(updates: seq<Update>, s: Sessions<V>)
    ensures Count(Run(updates, s).actions, IsAck) == Count(updates, ExpectsAck)
    decreases |updates|
  {
    if |updates| > 0 {
      var step := Dispatch(updates[0].event, updates[0].generation, s);
      RunAcksEveryCallback(updates[1..], step.sessions);
      CountAppend(step.reaction.actions, Run(updates[1..], step.sessions).actions, IsAck);
      StepAcks(updates[0], s);
    }
  }

  /** A run without a returning callback press acknowledges nothing. */
  lemma RunWithoutCallbacksAcksNothing<V>(updates: seq<Update>, s: Sessions<V>)
    requires forall i :: 0 <= i < |updates| ==> !ExpectsAck(updates[i])
    ensures forall i :: 0 <= i < |Run(updates, s).actions| ==> !Run(updates, s).actions[i].AnswerCallbackQuery?
  {
    RunAcksEveryCallback(updates, s);
  }
}

=== FILE: handlers.dfy ===
/**
 The bot's listeners (index.js:17-194) as pure functions from one event, the
 generation oracle and the session map to the Bot API calls they make, the
 prompt they send to Gemini (if any) and the session map afterwards.
 */
module Handlers {
  import opened Wrappers
  import opened Counting
  import opened JsString
  import opened Truncation
  import opened BotApi
  import opened SessionStore

  /** What one listener does: the calls it issues, in order; the prompt it
      passes to `generateContent`, if it calls it; and whether it ends by
      throwing out of the listener instead of returning. */
  datatype Reaction = Reaction(actions: seq<Action>, prompt: Option<string>, rejected: bool)

  /** The `message` listener's guard: the text is present, non-empty and
      does not start with '/'. */
  predicate PassesFilter(text: Option<string>)
    ensures PassesFilter(text) <==> text.Some? && |text.value| > 0 && text.value[0] != '/'
  {
    text.Some? && text.value != "" && !StartsWith(text.value, "/")
  }

  predicate IsSend(a: Action) { a.SendMessage? }
  predicate IsAck(a: Action) { a.AnswerCallbackQuery? }
  predicate IsEdit(a: Action) { a.EditMessageText? }

  /** The `/start`, `/help` and `/newtopic` listeners' single reply. */
  function HandleCommand(command: Command, chat: ChatId): (r: seq<Action>)
    ensures |r| == 1 && r[0].SendMessage? && r[0].chat == chat
    ensures r[0].options.replyTo == None
    ensures r[0].options.keyboard.Some? <==> command == Start
    ensures command == Start ==> r[0] == SendMessage(chat, WelcomeText, SendOptions(None, Some(StartKeyboard)))
    ensures command == Help ==> r[0] == SendMessage(chat, HelpText, SendOptions(None, None))
    ensures command == NewTopic ==> r[0] == SendMessage(chat, NewTopicText, SendOptions(None, None))
  {
    match command
    case Start => [SendMessage(chat, WelcomeText, SendOptions(None, Some(StartKeyboard)))]
    case Help => [SendMessage(chat, HelpText, SendOptions(None, None))]
    case NewTopic => [SendMessage(chat, NewTopicText, SendOptions(None, None))]
  }

  /** The `message` listener (index.js:75-104). Filtered-out messages get
      nothing; the rest get the typing indicator and then one reply. The
      generator's failures are caught, so the listener never throws. */
  function HandleMessage(m: IncomingMessage, generation: Generation): (r: Reaction)
    ensures !r.rejected
    ensures !PassesFilter(m.text) ==> r.actions == [] && r.prompt == None
    ensures PassesFilter(m.text) ==>
      && r.prompt == Some(m.text.value)
      && |r.actions| == 2
      && r.actions[0] == SendChatAction(m.chat, Typing)
      && r.actions[1].SendMessage? && r.actions[1].chat == m.chat
    ensures PassesFilter(m.text) && generation.Generated? ==>
      && r.actions[1].text == DirectReplyText(generation.text)
      && r.actions[1].options == SendOptions(Some(m.messageId), None)
    ensures PassesFilter(m.text) && generation.GenerationFailed? ==>
      && r.actions[1].text == MessageErrorText
      && r.actions[1].options == SendOptions(None, None)
  {
    if !PassesFilter(m.text) then
      Reaction([], None, false)
    else
      var reply :=
        match generation
        case Generated(text) =>
          SendMessage(m.chat, DirectReplyText(text), SendOptions(Some(m.messageId), None))
        case GenerationFailed =>
          SendMessage(m.chat, MessageErrorText, SendOptions(None, None));
      Reaction([SendChatAction(m.chat, Typing), reply], Some(m.text.value), false)
  }

  /** The single article offered for a non-blank query once Gemini answered
      `raw` (index.js:136-154). */
  function GeneratedInlineResult(query: string, raw: string): (r: InlineResult)
    ensures r.id == TimestampId
    ensures r.title == InlineTitle(query)
    ensures r.description == InlineSnippet(raw)
    ensures r.messageText == InlineAnswerHeading + r.description + InlineQuestionLabel + query
    ensures |r.title| <= |TitlePrefix| + InlineTitleLimit
    ensures |query| <= InlineTitleLimit ==> r.title == TitlePrefix + query
    ensures |r.description| <= InlineSnippetLimit
    ensures |raw| <= InlineSnippetLimit ==> r.description == raw
    ensures StartsWith(r.messageText, InlineAnswerHeading + r.description)
    ensures EndsWith(r.messageText, InlineQuestionLabel + query)
    ensures r.keyboard == Some(GeneratedKeyboard)
  {
    var snippet := InlineSnippet(raw);
    var text := InlineAnswerHeading + snippet + InlineQuestionLabel + query;
    assert text == (InlineAnswerHeading + snippet) + (InlineQuestionLabel + query);
    InlineResult(TimestampId, InlineTitle(query), text, snippet, Some(GeneratedKeyboard))
  }

  /** The `inline_query` listener (index.js:107-177). */
  function HandleInlineQuery(queryId: string, query: string, generation: Generation): (r: Reaction)
    ensures !r.rejected
    ensures |r.actions| == 1 && r.actions[0].AnswerInlineQuery?
    ensures r.actions[0].queryId == queryId && |r.actions[0].results| == 1
    ensures IsBlank(query) ==>
      && r.prompt == None
      && r.actions[0].results == [DefaultInlineResult]
      && r.actions[0].inlineOptions == InlineOptions(1, false)
    ensures !IsBlank(query) ==> r.prompt == Some(query)
    ensures !IsBlank(query) && generation.Generated? ==>
      && r.actions[0].results == [GeneratedInlineResult(query, generation.text)]
      && r.actions[0].inlineOptions == InlineOptions(10, true)
    ensures !IsBlank(query) && generation.GenerationFailed? ==>
      && r.actions[0].results == [ErrorInlineResult]
      && r.actions[0].inlineOptions == InlineOptions(1, false)
  {
    if IsBlank(query) then
      Reaction([AnswerInlineQuery(queryId, [DefaultInlineResult], InlineOptions(1, false))], None, false)
    else
      var answer :=
        match generation
        case Generated(text) =>
          AnswerInlineQuery(queryId, [GeneratedInlineResult(query, text)], InlineOptions(10, true))
        case GenerationFailed =>
          AnswerInlineQuery(queryId, [ErrorInlineResult], InlineOptions(1, false));
      Reaction([answer], Some(query), false)
  }

  /** The `callback_query` listener (index.js:180-194). A "help" press edits
      the message the button sits on; every press is then acknowledged. A
      "help" press without an origin message throws on `message.chat` before
      the acknowledgement is sent. */
  function HandleCallback(callbackId: string, data: Option<string>, origin: Option<MessageRef>): (r: Reaction)
    ensures r.prompt == None
    ensures r.rejected <==> data == Some(HelpData) && origin.None?
    ensures r.rejected ==> r.actions == []
    ensures !r.rejected ==> |r.actions| > 0 && r.actions[|r.actions| - 1] == AnswerCallbackQuery(callbackId)
    ensures !r.rejected ==>
      (Count(r.actions, IsEdit) > 0 <==> data == Some(HelpData))
    ensures data != Some(HelpData) ==> r.actions == [AnswerCallbackQuery(callbackId)]
    ensures data == Some(HelpData) && origin.Some? ==>
      r.actions == [EditMessageText(origin.value.chat, origin.value.messageId, QuickHelpText),
                    AnswerCallbackQuery(callbackId)]
  {
    if data == Some(HelpData) then
      match origin
      case Some(m) =>
        Reaction([EditMessageText(m.chat, m.messageId, QuickHelpText), AnswerCallbackQuery(callbackId)], None, false)
      case None =>
        Reaction([], None, true)
    else
      Reaction([AnswerCallbackQuery(callbackId)], None, false)
  }

  /** The outcome of one event: the listener's reaction and the session map
      after it. */
  datatype Step<V> = Step(reaction: Reaction, sessions: Sessions<V>)

  /** Routes one event to its listener. Only `/newtopic` touches the session
      map, and only by deleting. */
  function Dispatch<V>(e: Event, generation: Generation, s: Sessions<V>): (r: Step<V>)
    ensures r.sessions.Keys <= s.Keys
    ensures forall k :: k in r.sessions ==> r.sessions[k] == s[k]
    ensures e.CommandEvent? && e.command == NewTopic ==> r.sessions == s - {e.chat}
    ensures !(e.CommandEvent? && e.command == NewTopic) ==> r.sessions == s
  {
    match e
    case CommandEvent(command, chat) =>
      var s' := if command == NewTopic then Reset(s, chat) else s;
      Step(Reaction(HandleCommand(command, chat), None, false), s')
    case MessageEvent(m) =>
      Step(HandleMessage(m, generation), s)
    case InlineQueryEvent(queryId, query) =>
      Step(HandleInlineQuery(queryId, query, generation), s)
    case CallbackQueryEvent(callbackId, data, origin) =>
      Step(HandleCallback(callbackId, data, origin), s)
  }
}

=== FILE: jsstring.dfy ===
/**
 The few JavaScript string operations the bot relies on, over `seq<char>`
 read as a sequence of UTF-16 code units (JavaScript's `.length` unit).
 */
module JsString {

  /** ECMAScript WhiteSpace and LineTerminator code points, the set that
      `String.prototype.trim` removes. */
  predicate IsWhitespace(c: char)
  {
    var n := c as int;
    || n == 0x09 || n == 0x0A || n == 0x0B || n == 0x0C || n == 0x0D
    || n == 0x20 || n == 0xA0 || n == 0x1680
    || (0x2000 <= n <= 0x200A)
    || n == 0x2028 || n == 0x2029 || n == 0x202F || n == 0x205F
    || n == 0x3000 || n == 0xFEFF
  }

  predicate AllWhitespace(s: string)
  {
    forall i :: 0 <= i < |s| ==> IsWhitespace(s[i])
  }

  /** Drops leading whitespace: the result is the suffix of `s` that starts
      at its first non-whitespace unit. */
  function TrimStart(s: string): (r: string)
    ensures |r| <= |s| && r == s[|s| - |r|..]
    ensures AllWhitespace(s[..|s| - |r|])
    ensures |r| > 0 ==> !IsWhitespace(r[0])
    decreases |s|
  {
    if |s| > 0 && IsWhitespace(s[0]) then
      var r := TrimStart(s[1..]);
      assert s[..|s| - |r|] == [s[0]] + s[1..][..|s| - 1 - |r|];
      r
    else
      s
  }

  /** Drops trailing whitespace: the result is the prefix of `s` that ends
      at its last non-whitespace unit. */
  function TrimEnd(s: string): (r: string)
    ensures |r| <= |s| && r == s[..|r|]
    ensures AllWhitespace(s[|r|..])
    ensures |r| > 0 ==> !IsWhitespace(r[|r| - 1])
    decreases |s|
  {
    if |s| > 0 && IsWhitespace(s[|s| - 1]) then
      var r := TrimEnd(s[..|s| - 1]);
      assert s[|r|..] == s[..|s| - 1][|r|..] + [s[|s| - 1]];
      r
    else
      s
  }

  /** `s.trim()` */
  function Trim(s: string): string
  {
    TrimEnd(TrimStart(s))
  }

  /** JavaScript's `!s.trim()`: the trimmed string is the empty, falsy string. */
  predicate IsBlank(s: string)
    ensures IsBlank(s) <==> AllWhitespace(s)
    ensures |s| == 0 ==> IsBlank(s)
  {
    Trim(s) == ""
  }

  /** A string is blank exactly when every one of its code units is whitespace;
      in particular the empty query is blank. */
  lemma {:induction false} BlankIffAllWhitespace(s: string)
    ensures IsBlank(s) <==> AllWhitespace(s)
  {
  }

  /** `s.startsWith(p)` */
  predicate StartsWith(s: string, p: string)
  {
    |p| <= |s| && s[..|p|] == p
  }

  /** `s.endsWith(p)` */
  predicate EndsWith(s: string, p: string)
  {
    |p| <= |s| && s[|s| - |p|..] == p
  }
}

=== FILE: properties.dfy ===
/**
 Per-event obligations of the listeners, stated over `Dispatch`.
 */
module DispatchProperties {
  import opened Wrappers
  import opened Counting
  import opened JsString
  import opened Truncation
  import opened BotApi
  import opened SessionStore
  import opened Handlers

  /** A chat message reaches the generator, and gets any reaction at all,
      exactly when it passes the `message` listener's filter. */
  lemma MessageFilterDecides<V>(m: IncomingMessage, g: Generation, s: Sessions<V>)
    ensures Dispatch(MessageEvent(m), g, s).reaction.actions == [] <==> !PassesFilter(m.text)
    ensures Dispatch(MessageEvent(m), g, s).reaction.prompt == None <==> !PassesFilter(m.text)
  {
  }

  /** Absent text, empty text and text starting with '/' are all filtered out. */
  lemma FilterRejectsCommandsAndNonText(text: Option<string>)
    ensures text == None ==> !PassesFilter(text)
    ensures text == Some("") ==> !PassesFilter(text)
    ensures text.Some? && |text.value| > 0 && text.value[0] == '/' ==> !PassesFilter(text)
    ensures text.Some? && |text.value| > 0 && text.value[0] != '/' ==> PassesFilter(text)
  {
  }

  /** A message that passes the filter gets exactly one `sendMessage`, to its
      own chat, as the last call; whichever way generation went. */
  lemma MessageGetsExactlyOneReply<V>(m: IncomingMessage, g: Generation, s: Sessions<V>)
    requires PassesFilter(m.text)
    ensures var acts := Dispatch(MessageEvent(m), g, s).reaction.actions;
      && Count(acts, IsSend) == 1
      && acts[|acts| - 1].SendMessage? && acts[|acts| - 1].chat == m.chat
      && (acts[|acts| - 1].options.replyTo.Some? <==> g.Generated?)
      && acts == [SendChatAction(m.chat, Typing), acts[1]]
      && (g.Generated? ==>
            acts[1] == SendMessage(m.chat, DirectReplyText(g.text), SendOptions(Some(m.messageId), None)))
      && (g.GenerationFailed? ==>
            acts[1] == SendMessage(m.chat, MessageErrorText, SendOptions(None, None)))
  {
  }

  /** Gemini is asked exactly for accepted chat messages and non-blank inline
      queries, and always with the user's text unmodified (the query is not
      trimmed). */
  lemma PromptOnlyForAcceptedInput<V>(e: Event, g: Generation, s: Sessions<V>)
    ensures var p := Dispatch(e, g, s).reaction.prompt;
      && (p.Some? <==>
          (e.MessageEvent? && PassesFilter(e.message.text)) || (e.InlineQueryEvent? && !IsBlank(e.query)))
      && (p.Some? && e.MessageEvent? ==> p.value == e.message.text.value)
      && (p.Some? && e.InlineQueryEvent? ==> p.value == e.query)
  {
  }

  /** The only event whose listener throws is a "help" press that carries no
      origin message; generation failures never escape a listener. */
  lemma OnlyOriginlessHelpPressThrows<V>(e: Event, g: Generation, s: Sessions<V>)
    ensures Dispatch(e, g, s).reaction.rejected <==>
      e.CallbackQueryEvent? && e.data == Some(HelpData) && e.origin.None?
  {
  }

  /** Every callback whose listener returns is acknowledged exactly once, as
      its last call; the origin message is edited only for "help". */
  lemma CallbackAckedOnceLast<V>(id: string, data: Option<string>, origin: Option<MessageRef>, g: Generation, s: Sessions<V>)
    requires data != Some(HelpData) || origin.Some?
    ensures var acts := Dispatch(CallbackQueryEvent(id, data, origin), g, s).reaction.actions;
      && Count(acts, IsAck) == 1
      && acts[|acts| - 1] == AnswerCallbackQuery(id)
      && (Count(acts, IsEdit) == 1 <==> data == Some(HelpData))
      && Count(acts, IsEdit) <= 1
      && (data == Some(HelpData) ==>
            acts[0] == EditMessageText(origin.value.chat, origin.value.messageId, QuickHelpText))
  {
  }

  /** Which of the three inline answers a query gets: the default one exactly
      for blank queries, the generated one (cached 10 s, personal) exactly
      when a non-blank query was answered by Gemini, the error one otherwise. */
  lemma InlineAnswerKinds<V>(queryId: string, query: string, g: Generation, s: Sessions<V>)
    ensures var acts := Dispatch(InlineQueryEvent(queryId, query), g, s).reaction.actions;
      && |acts| == 1 && acts[0].AnswerInlineQuery? && |acts[0].results| == 1
      && (acts[0].results[0] == DefaultInlineResult <==> IsBlank(query))
      && (acts[0].results[0] == ErrorInlineResult <==> !IsBlank(query) && g.GenerationFailed?)
      && (acts[0].results[0].id == TimestampId <==> !IsBlank(query) && g.Generated?)
      && (acts[0].inlineOptions.cacheTime == 10 <==> !IsBlank(query) && g.Generated?)
      && (acts[0].inlineOptions.cacheTime == 1 <==> !(!IsBlank(query) && g.Generated?))
      && (acts[0].inlineOptions.isPersonal <==> !IsBlank(query) && g.Generated?)
  {
  }

  /** `/newtopic` leaves the chat without a session, keeps every other entry,
      is a no-op when the chat had none, and sends its confirmation either way. */
  lemma NewTopicResets<V>(chat: ChatId, g: Generation, s: Sessions<V>)
    ensures var r := Dispatch(CommandEvent(NewTopic, chat), g, s);
      && chat !in r.sessions
      && (forall k :: k != chat ==> (k in r.sessions <==> k in s))
      && (forall k :: k in r.sessions ==> r.sessions[k] == s[k])
      && (chat !in s ==> r.sessions == s)
      && r.reaction.actions == [SendMessage(chat, NewTopicText, SendOptions(None, None))]
  {
  }

  /** The "Bantuan" button of the `/start` reply carries the callback data the
      callback listener answers with an edit: pressing it on the welcome
      message replaces that message with the quick help and acknowledges. */
  lemma WelcomeHelpButtonIsHandled<V>(id: string, chat: ChatId, welcomeId: MessageId, g: Generation, s: Sessions<V>)
    ensures var keyboard := HandleCommand(Start, chat)[0].options.keyboard;
      && keyboard.Some? && |keyboard.value| == 2 && |keyboard.value[1]| == 1
      && keyboard.value[1][0] == CallbackButton("Bantuan", HelpData)
      && Dispatch(CallbackQueryEvent(id, Some(keyboard.value[1][0].data), Some(MessageRef(chat, welcomeId))), g, s).reaction.actions
         == [EditMessageText(chat, welcomeId, QuickHelpText), AnswerCallbackQuery(id)]
  {
  }
  /** A generated inline answer shows the same snippet twice: as the result's
      description and inside its message, after the heading and before the
      quoted question. A long answer is cut to its first 197 units and "...";
      a long query is quoted in the title by its first 27 units and "...". */
  lemma GeneratedSnippetPlacement<V>(queryId: string, query: string, raw: string, s: Sessions<V>)
    requires !IsBlank(query)
    ensures var acts := Dispatch(InlineQueryEvent(queryId, query), Generated(raw), s).reaction.actions;
      var result := acts[0].results[0];
      && result.messageText == InlineAnswerHeading + result.description + InlineQuestionLabel + query
      && (|raw| <= 200 ==> result.description == raw)
      && (|raw| > 200 ==> result.description == raw[..197] + "..." && |result.description| == 200)
      && (|query| <= 30 ==> result.title == "Q: " + query)
      && (|query| > 30 ==> result.title == "Q: " + query[..27] + "...")
  {
  }
}

=== FILE: sessions.dfy ===
/**
 The in-memory `chatSessions` map (index.js:14). The bot only ever asks
 whether a chat has an entry and deletes entries; nothing in the bot stores
 one, so the value type is left as a parameter.
 */
module SessionStore {
  import opened BotApi

  type Sessions<V> = map<ChatId, V>

  /** The `/newtopic` reset: delete the chat's entry if it has one. */
  function Reset<V>(s: Sessions<V>, chat: ChatId): (r: Sessions<V>)
    ensures chat !in r
    ensures forall k :: k != chat ==> (k in r <==> k in s)
    ensures forall k :: k in r ==> k in s && r[k] == s[k]
    ensures chat !in s ==> r == s
  {
    if chat in s then s - {chat} else s
  }

  /** Guarding the delete with `has` makes no difference: resetting is plain
      removal of the key, present or not. */
  lemma ResetIsRemoval<V>(s: Sessions<V>, chat: ChatId)
    ensures Reset(s, chat) == s - {chat}
    ensures Reset(s, chat).Keys == s.Keys - {chat}
  {
  }

  /** A second reset of the same chat is a no-op. */
  lemma ResetIdempotent<V>(s: Sessions<V>, chat: ChatId)
    ensures Reset(Reset(s, chat), chat) == Reset(s, chat)
  {
  }

  /** Resets of different chats do not interfere. */
  lemma ResetCommutes<V>(s: Sessions<V>, a: ChatId, b: ChatId)
    ensures Reset(Reset(s, a), b) == Reset(Reset(s, b), a)
  {
  }
}

=== FILE: truncation.dfy ===
/**
 The one length-capping rule the bot applies to everything it shows: a text
 longer than the limit keeps its first `limit - 3` code units followed by
 "...", so that the result is exactly `limit` units long.
 */
module Truncation {
  import opened JsString

  const Ellipsis: string := "..."

  /** Telegram's cap on the text of a sent message (index.js:91). */
  const DirectReplyLimit: nat := 4096
  /** The cap on an inline result's snippet (index.js:136-137). */
  const InlineSnippetLimit: nat := 200
  /** The cap on the query text quoted in an inline result's title (index.js:142). */
  const InlineTitleLimit: nat := 30

  /** The prefix every inline result title carries. */
  const TitlePrefix: string := "Q: "

  /** `s.length > limit ? s.substring(0, limit - 3) + '...' : s` */
  function Truncate(s: string, limit: nat): (r: string)
    requires |Ellipsis| <= limit
    ensures |s| <= limit ==> r == s
    ensures |s| > limit ==> |r| == limit
    ensures |s| > limit ==> StartsWith(s, r[..limit - |Ellipsis|])
    ensures |s| > limit ==> EndsWith(r, Ellipsis)
  {
    if |s| > limit then s[..limit - |Ellipsis|] + Ellipsis else s
  }

  /** The result of `Truncate` is pinned down by its contract: any string that
      is `s` itself when `s` fits, and otherwise `limit` units made of a prefix
      of `s` and the ellipsis, is the truncation of `s`. */
  lemma TruncateCharacterized(s: string, limit: nat, r: string)
    requires |Ellipsis| <= limit
    ensures r == Truncate(s, limit) <==>
      if |s| <= limit then r == s
      else |r| == limit && StartsWith(s, r[..limit - |Ellipsis|]) && EndsWith(r, Ellipsis)
  {
  }

  /** Never longer than the limit. */
  lemma TruncateBounded(s: string, limit: nat)
    requires |Ellipsis| <= limit
    ensures |Truncate(s, limit)| <= limit
    ensures |Truncate(s, limit)| <= |s|
  {
  }

  /** Truncating twice with the same limit changes nothing the second time. */
  lemma TruncateIdempotent(s: string, limit: nat)
    requires |Ellipsis| <= limit
    ensures Truncate(Truncate(s, limit), limit) == Truncate(s, limit)
  {
  }

  /** The text of a successful direct reply (index.js:91). */
  function DirectReplyText(raw: string): (r: string)
    ensures |raw| <= 4096 ==> r == raw
    ensures |raw| > 4096 ==> |r| == 4096 && r[..4093] == raw[..4093] && r[4093..] == "..."
  {
    Truncate(raw, DirectReplyLimit)
  }

  /** The snippet shown as an inline result's description and inside its
      message (index.js:136-137). */
  function InlineSnippet(raw: string): (r: string)
    ensures |raw| <= 200 ==> r == raw
    ensures |raw| > 200 ==> |r| == 200 && r == raw[..197] + "..."
  {
    Truncate(raw, InlineSnippetLimit)
  }

  /** The title of a generated inline result: "Q: " and the query, the query
      cut to 27 units and "..." when it is longer than 30 (index.js:142). */
  function InlineTitle(query: string): (r: string)
    ensures |r| <= |TitlePrefix| + InlineTitleLimit
    ensures StartsWith(r, TitlePrefix)
    ensures |query| <= 30 ==> r == "Q: " + query
    ensures |query| > 30 ==> r == "Q: " + query[..27] + "..."
  {
    TitlePrefix + Truncate(query, InlineTitleLimit)
  }
}

=== FILE: wrappers.dfy ===
/** Optional values: the model's stand-in for JavaScript's `undefined`. */
module Wrappers {

  datatype Option<+T> = None | Some(value: T)
}
